=== FILE: README.md ===
# hangout payment verification — a Dafny model

The hangout app takes event-payment submissions and lets an admin confirm them.
- An attendee posts a name, a phone number and a screenshot of a transfer.
- An admin logs in, reviews the list, verifies a payment, and checks the attendee in at the door. A check-in can be undone.

This project models the two pieces of logic that carry that workflow:

- **The server** (`server.js`).
  - The phone canonicaliser `normalizePhone`.
  - The `adminAuth` middleware, the login checks and the session probe.
  - The routes over the one `submissions` table: `/submit`, `/submissions`, `/verify/:id`, `/checkin/:id` and `/uncheckin/:id`.
  - The table is a class holding a map from id to record and a `nextId` counter that plays the serial key. Each route is a method that checks its guard and then changes that map.
- **The admin page** (`client/script.js`).
  - The search and status filter, the dashboard counters, the status badge and action button of a row, and the case-insensitive name order of the table.
  - These are pure functions in module `View`.
  - The page state is the global `submissions` array, the id the verification modal is open on, the rows on screen and the counters. It lives in the class `Console.AdminConsole`, whose methods are the page's handlers.
  - `renderSubmissions` sorts the array it is handed in place. Rendering the global list therefore reorders the global list itself, and the model keeps that aliasing.

Files:
- `wrappers.dfy`: `Option`.
- `text.dfy`: the JavaScript string operations used, namely `\s` white space, `replace(/\s+/g, "")`, `trim`, `toLowerCase`, `includes`, `startsWith`, `split(" ")[1]` (through a first-index helper), and the order that stands for `localeCompare`.
- `schema.dfy`: the record type and the three statuses.
- `phone.dfy`, `auth.dfy`, `store.dfy`: the server.
- `view.dfy`, `console.dfy`: the page.

Conventions:
- A value JavaScript would hold as `undefined` or `null` in a string field is the empty string. The application tests these fields in two ways, and both fail for all three values alike:
  - a truthiness test (`!phone`, `sub.status || "pending"`);
  - a strict comparison (`===`) with a non-empty value: a literal in the counters, and the status select's value in the status filter. The model assumes the select's values are non-empty.
- `jwt.verify` is a parameter `verify: string -> Option<string>`: the username claim of an accepted token, or `None`.
- `bcrypt.compare` against the configured hash is a parameter `passwordMatches: string -> bool`.
- The server's answer to a page request (`data.success`) and the values of the search box and status select are method parameters.

## Model

| member | source | states |
|---|---|---|
| Text.StripSpaces | server.js:31 | The result contains no white space and is no longer than the input. |
| Text.StripSpacesKeeps | server.js:31 | Removing white space keeps every non-space character exactly as often as it occurred. |
| Text.StripSpacesOfBlank | server.js:31 | Removing white space gives the empty string exactly when the input is all white space. |
| Text.StripSpacesAppend | server.js:31 | White-space removal distributes over concatenation. |
| Text.Trim | client/script.js:224 | `trim()` is a slice of the input with only white space before and after it. It starts and ends with a non-space character, and is empty exactly when the input is all white space. |
| Text.Includes | client/script.js:232-233 | `includes` holds exactly when the term occurs at some position. |
| Text.LexLessAsymmetric | client/script.js:128 | Two names are never each strictly before the other. |
| Text.LexLessSplits | client/script.js:128 | If c precedes a then, for any b, c precedes b or b precedes a; this is what makes the order transitive. |
| Phone.NormalizePhone | server.js:30-36 | The canonical phone contains no white space. |
| Phone.NormalizeByPrefix | server.js:32-35 | After white space is removed: a leading "0" becomes "+234" plus the rest, a leading "234" gains "+", and anything else, "+234..." included, is unchanged. |
| Phone.NormalizeAgreesOnSpellings | server.js:30-36 | "0…", "234…" and "+234…" spellings of one national number all canonicalise to "+234" followed by the number. |
| Phone.NormalizeInternational | server.js:33-34 | Every number the canonicaliser rewrites starts with "+234". |
| Phone.NormalizeIdempotent | server.js:30-36 | Canonicalising twice equals canonicalising once. |
| Phone.NormalizeExample | server.js:30-36 | "0803 123 4567" canonicalises to "+2348031234567". |
| Phone.NormalizeBlank | server.js:31 | A phone made only of white space canonicalises to the empty string. |
| Auth.BearerPart | server.js:43 | `split(" ")[1]`: nothing when the header has no space; otherwise the longest space-free text right after the first space. |
| Auth.RequestToken | server.js:40-44 | The cookie token when present; otherwise the second word of a non-empty Authorization header (`Auth.BearerPart`); no token when there is neither. |
| Auth.AdminAuth | server.js:39-56 | 401 exactly when there is no token; 403 exactly when the token service rejects it; otherwise admitted as the user the token names. |
| Auth.CookieTakesPrecedence | server.js:40-44 | With a cookie present, the Authorization header does not affect the decision. |
| Auth.BearerHeader | server.js:42-43 | "Bearer t" presents t when t contains no space. |
| Auth.Login | server.js:59-94 | 400 exactly when the username or password is missing. 401 exactly when both are given but the username differs from the configured one or the password check fails. Otherwise logged in, as that username. |
| Auth.NoAdminNoLogin | server.js:68-71 | With no admin username configured, nobody logs in. |
| Auth.Session | server.js:101-111 | The probe reads only the cookie: active exactly when the cookie token is accepted, for the user it names. |
| Auth.SessionAgreesWithAdminAuth | server.js:101-111 | For a cookie-only request, the probe is active exactly when admin routes admit the request, and for the same user. |
| Auth.AfterLogout | server.js:96-99 | With the cookie cleared and no Authorization header, the probe reports logged-out and admin routes answer 401. |
| Store.Denied | server.js:46-55 | The middleware's refusal carries code 401 or 403 as the decision says, and no data. |
| Store.SubmissionStore.constructor | src/database/schema.js:2-11 | An empty table whose invariant holds: ids below the counter, each record under its own id, non-empty name and screenshot, a known status, and at most one record per phone. |
| Store.SubmissionStore.Submit | server.js:114-166 | A missing name, phone or screenshot gives 400 and no change. An already-stored canonical phone gives 400 and no change. Otherwise exactly one new "pending" record with the canonical phone goes in under the next id, the others are untouched, and it is returned with 201. The table invariant, phone uniqueness included, is kept. |
| Store.SubmissionStore.ListSubmissions | server.js:169-182 | Refused requests get the middleware's reply. Admitted ones get 200 and every stored record exactly once and nothing else, by ascending id. |
| Store.SubmissionStore.SetStatus | server.js:197-200 | Only the status of the record with that id changes, and the table invariant is kept. |
| Store.SubmissionStore.Verify | server.js:184-210 | 401/403 from the middleware and 404 for an unknown id, with no change. Otherwise the record becomes "verified" whatever its status was, no other record changes, and the reply is the old record with only the status replaced. |
| Store.SubmissionStore.CheckIn | server.js:212-237 | As `Verify`, with status "checked_in" and the message "<name> checked in successfully.". |
| Store.SubmissionStore.UncheckIn | server.js:240-274 | As `Verify`, with status "verified" and the message "<name> unchecked in successfully.". |
| Store.VerifyCheckInUncheck | server.js:184-274 | On a pending record, verify, check-in and uncheck-in reply with "verified", "checked_in" and "verified". Afterwards only that record differs, and only in its status. |
| Store.SubmitTwiceSamePhone | server.js:127-140 | Two submissions whose phones canonicalise alike: the first is stored, the second is refused with 400. The table ends as the old table plus the first record, so a record with that phone exists and it is the only one. |
| View.Filter | client/script.js:230-238 | `filter` keeps exactly the accepted elements of its input and is no longer than the input. |
| View.FilterCounts | client/script.js:230-238 | `filter` keeps each accepted element as often as it occurs and drops every other one. |
| View.FilterUpdate | client/script.js:246-250 | Replacing one element changes a filtered count by what the old and new element contribute. |
| View.SearchKey | client/script.js:224 | The term is empty exactly when the search box holds only white space. |
| View.MatchesTermMeans | client/script.js:231-233 | A non-empty term matches a record exactly when it occurs in the lower-cased name or the lower-cased phone. |
| View.ShownMeans | client/script.js:229-239 | A record is shown exactly when the search is empty or matches, and the status filter is "all" or equals the record's status. |
| View.FilterSubmissions | client/script.js:223-243 | A record is in the filtered list exactly when it is in the list and passes both conditions. It keeps all its occurrences when it passes and none otherwise. |
| View.NoFilterShowsAll | client/script.js:229-239 | An empty search and "all" show the list unchanged. |
| View.CountStatus | client/script.js:248-250 | A status count never exceeds the list length. |
| View.UpdateStats | client/script.js:246-259 | The total is the list length, and no counter exceeds it. |
| View.StatsAddUp | client/script.js:246-250 | verified + pending + checked_in never exceeds the total, and equals it exactly when every record has one of the three statuses. |
| View.StatsMatchStatusFilter | client/script.js:237-250 | Each counter equals the number of rows that status filter shows with an empty search. |
| View.StatsIgnoreOrder | client/script.js:125-129 | Lists holding the same records give the same counters, so sorting never changes them. |
| View.FirstIndex | client/script.js:364 | `findIndex`: the first position holding the id, or the list length when there is none. |
| View.PatchStatus | client/script.js:363-365 | Same length; only the first record with the id changes, and only in its status; an unknown id changes nothing. |
| View.PatchKeepsOtherFields | client/script.js:365 | Patching keeps every record's id, name, phone and screenshot in place. |
| View.StatsAfterPatch | client/script.js:363-367 | Moving one record to a new status moves exactly one unit from the old status's counter to the new one. |
| View.StatsAfterPatchElsewhere | client/script.js:363-367 | The counters of other statuses do not move. |
| View.EffectiveStatus | client/script.js:133 | A missing status reads as "pending"; a present one is kept as it is. |
| View.StatusBadge | client/script.js:137-147 | "Checked In" exactly for checked_in, "Verified" exactly for verified, "Pending" for everything else. |
| View.Target | client/script.js:289-358 | Check In's route writes "checked_in"; the Verify and Uncheck routes write "verified". |
| View.ActionFor | client/script.js:149-166 | Reading a missing status as pending: Verify exactly for pending, Check In exactly for verified, Uncheck exactly for checked_in, and no button for any other status. A button always leads to a different status. |
| View.MissingStatusIsPending | client/script.js:133-166 | A record without a status gets the "Pending" badge and the Verify button. |
| View.ButtonsWalkTheStatuses | client/script.js:149-166 | From pending the buttons walk verified, checked in, verified again. No button leads back to pending. |
| View.UnknownStatusLooksPending | client/script.js:137-166 | A status the server never writes shows the "Pending" badge with no button. |
| View.NameKey | client/script.js:126-127 | The sort key has the name's length, with a missing name giving "". |
| View.NameOrderedPairwise | client/script.js:125-129 | In a table ordered neighbour by neighbour, no row's name comes strictly before any row above it. |
| View.NameOrderIgnoresCase | client/script.js:126-128 | "alice" sorts before "Bob", although 'B' precedes 'a' in character order. |
| Console.AdminConsole.constructor | client/script.js:62-63 | An empty list, no modal id, an empty table and zero counters. |
| Console.AdminConsole.SortByName | client/script.js:125-129 | In place: the array afterwards holds the same records, with names in case-insensitive order. |
| Console.AdminConsole.InsertLast | client/script.js:125-129 | One step of the in-place sort: it extends the ordered prefix by one record, keeps the records, and leaves the rest of the array alone. |
| Console.AdminConsole.RenderSubmissions | client/script.js:117-186 | The array handed in is sorted in place, keeping its records, and the table shows it in that order. |
| Console.AdminConsole.FindIndex | client/script.js:364 | -1 exactly when no record has the id; otherwise the first position holding it. |
| Console.AdminConsole.LoadSubmissions | client/script.js:92-114 | The loader empties the table first. On success the list is replaced by the server's records, sorted in place and shown, and the counters describe them. On failure the list and the counters are unchanged and the table stays empty. |
| Console.AdminConsole.ShowFiltered | client/script.js:223-243 | The global list is untouched. The table shows, in name order, exactly the records the filter keeps, and the counters describe the whole list. |
| Console.AdminConsole.UpdateSubmissionStatus | client/script.js:363-368 | The global list becomes the patched list re-sorted in place; the table shows it and the counters describe it. |
| Console.AdminConsole.OpenVerificationModal | client/script.js:262-274 | An id in the list is remembered; an id not in the list leaves the remembered id unchanged. |
| Console.AdminConsole.CloseVerificationModal | client/script.js:276-280 | The remembered id is reset to null. |
| Console.AdminConsole.VerifySubmission | client/script.js:283-308 | Nothing changes when no id is remembered (or it is 0) or the server refuses. Otherwise the record becomes "verified" and the modal closes. The global list is re-sorted by name, and the table shows the filtered records in name order. |
| Console.AdminConsole.CheckInUser | client/script.js:311-334 | On success the record becomes "checked_in". The global list is re-sorted by name, and the table shows the filtered records in name order. On failure nothing changes. |
| Console.AdminConsole.UncheckUser | client/script.js:337-360 | On success the record goes back to "verified". The global list is re-sorted by name, and the table shows the filtered records in name order. On failure nothing changes. |

## Left out

- The database, the upload middleware and the image host. The table is an in-memory map. The uploaded file is reduced to its URL and public id, or its absence.
- Requests are handled one at a time. The select-then-insert race on the phone, which the unique constraint resolves, is not modelled.
- Store.SubmissionStore.Submit: the `varchar` length limits (src/database/schema.js:4-9) are not modelled. The database rejects an over-long name, phone, screenshot URL or public id at the insert, and /submit answers 500. The model stores the record and answers 201. For example, "0803 123 4567 / 0805 555 1234" canonicalises to a 26-character phone, over the 25-character limit.
- The 500 replies caused by infrastructure failures. Another 500 is a consequence of the data: an upload whose public id is missing fails the not-null insert. It is not modelled; the model stores the missing public id as "".
- Route ids come from `Number(req.params.id)`; a non-numeric id (NaN) is not modelled, and ids are integers.
- Token signing and expiry, cookie options, the secret, and the hashing itself; these are collaborators passed in as parameters.
- Logout is modelled only through its effect, a cleared cookie (`Auth.AfterLogout`).
- The page's DOM work, toasts, the loader's spinner, `setButtonLoading`, `window.open`, the redirect on 401 in `checkAuth` and `fetchSubmissions`, and the event wiring. The `confirm` dialog before unchecking is not modelled: `UncheckUser` is the confirmed path.
- `localeCompare` and Unicode `toLowerCase`. Names are lower-cased in ASCII and compared character by character. `\s` is the JavaScript white-space set without Unicode normalisation.
- Console.AdminConsole.VerifySubmission: page handlers are modelled as atomic, with no interleaving during the request. In the page, the modal's Close and Cancel buttons stay live while POST /verify is pending, and `currentSubmissionId` is read again after the answer arrives. If the modal is closed in that window, the server verifies the record but the page patches nothing and the row stays "pending" until the next load. The model does not capture this.
- Console.AdminConsole.SortByName: it does not state stability, which JavaScript's sort guarantees and the insertion sort does preserve.
- Store.SubmissionStore.ListSubmissions: the query has no ORDER BY, so the database's order is unspecified. The model fixes ascending id order.
- A phone made only of white space passes the `!phone` guard and is stored as the empty string; the model does exactly that (`Phone.NormalizeBlank`).

=== FILE: auth.dfy ===
/**
 * Admin authentication decisions of server.js: the `adminAuth`
 * middleware, the login checks and the session probe.
 *
 * The token service (`jwt.verify`) and the password check
 * (`bcrypt.compare` against the configured hash) are collaborators whose
 * internals are not modelled: they are passed in as functions. A token
 * the service accepts yields the username claim it was signed with.
 * Absent strings (no cookie, no header, a missing body field) are the
 * empty string, which the source treats as falsy like `undefined`.
 */
module Auth {
  import opened Wrappers
  import opened Text

  /** Outcome of the `adminAuth` middleware. */
  datatype AuthDecision =
    | Unauthorized          // 401 "Unauthorized": no token at all
    | Forbidden             // 403 "Invalid token": the token service rejected it
    | Admitted(user: string) // next(): the request reaches the route handler

  function AuthCode(d: AuthDecision): int {
    match d
    case Unauthorized => 401
    case Forbidden => 403
    case Admitted(_) => 200
  }

  /**
   * `authorization.split(" ")[1]`: the text between the first and the
   * second space of the header, or nothing (`undefined`) when there is no
   * space.
   */
  function BearerPart(authorization: string): (w: string)
    ensures NoSpaceIn(w)
    ensures ' ' !in authorization ==> w == ""
    ensures ' ' in authorization ==>
      var i := IndexOf(authorization, ' ');
      && ' ' !in authorization[..i]
      && StartsWith(authorization[i + 1..], w)
      && (|authorization[i + 1..]| == |w| || authorization[i + 1 + |w|] == ' ')
  {
    var i := IndexOf(authorization, ' ');
    if i == |authorization| then ""
    else
      var rest := authorization[i + 1..];
      var j := IndexOf(rest, ' ');
      rest[..j]
  }

  predicate NoSpaceIn(s: string) {
    ' ' !in s
  }

  /** The token a request presents: the `admin_token` cookie, or else the second word of the Authorization header. */
  function RequestToken(cookieToken: string, authorization: string): (t: string)
    ensures cookieToken != "" ==> t == cookieToken
    ensures cookieToken == "" && authorization != "" ==> t == BearerPart(authorization)
    ensures cookieToken == "" && authorization == "" ==> t == ""
  {
    if cookieToken != "" then cookieToken
    else if authorization != "" then BearerPart(authorization)
    else ""
  }

  /**
   * `adminAuth`: 401 when the request carries no token, 403 when the token
   * service rejects it, and otherwise admitted as the user the token names.
   */
  function AdminAuth(cookieToken: string, authorization: string, verify: string -> Option<string>): (d: AuthDecision)
    ensures d.Unauthorized? <==> RequestToken(cookieToken, authorization) == ""
    ensures d.Forbidden? <==> RequestToken(cookieToken, authorization) != "" && verify(RequestToken(cookieToken, authorization)).None?
    ensures d.Admitted? <==> RequestToken(cookieToken, authorization) != "" && verify(RequestToken(cookieToken, authorization)).Some?
    ensures d.Admitted? ==> verify(RequestToken(cookieToken, authorization)) == Some(d.user)
  {
    var token := RequestToken(cookieToken, authorization);
    if token == "" then Unauthorized
    else match verify(token)
      case None => Forbidden
      case Some(user) => Admitted(user)
  }

  /** A cookie token takes precedence: whatever the header says is ignored when a cookie is present. */
  lemma CookieTakesPrecedence(cookieToken: string, header1: string, header2: string, verify: string -> Option<string>)
    requires cookieToken != ""
    ensures AdminAuth(cookieToken, header1, verify) == AdminAuth(cookieToken, header2, verify)
  {
  }

  /** "Bearer <token>" presents <token> when the token has no space in it. */
  lemma BearerHeader(token: string)
    requires ' ' !in token
    ensures RequestToken("", "Bearer " + token) == token
  {
    var h := "Bearer " + token;
    assert h[6] == ' ';
    assert forall k :: 0 <= k < 6 ==> h[k] != ' ';
    assert IndexOf(h, ' ') == 6;
    assert h[7..] == token;
    assert IndexOf(token, ' ') == |token|;
  }

  /** Outcome of POST /admin/login. */
  datatype LoginOutcome =
    | MissingCredentials    // 400 "Username and password required"
    | InvalidCredentials    // 401 "Invalid credentials"
    | LoggedIn(user: string) // 200: a session token is issued for this username

  function LoginCode(o: LoginOutcome): int {
    match o
    case MissingCredentials => 400
    case InvalidCredentials => 401
    case LoggedIn(_) => 200
  }

  /**
   * The login checks: both fields present, the username equal to the
   * configured admin username (which may be unset), and the password
   * accepted by the hash check; a token is then issued for that username.
   */
  function Login(username: string, password: string, adminUsername: Option<string>, passwordMatches: string -> bool): (o: LoginOutcome)
    ensures o.MissingCredentials? <==> username == "" || password == ""
    ensures o.LoggedIn? <==> username != "" && password != "" && adminUsername == Some(username) && passwordMatches(password)
    ensures o.LoggedIn? ==> o.user == username
    ensures LoginCode(o) == 401 <==>
      username != "" && password != "" && (adminUsername != Some(username) || !passwordMatches(password))
  {
    if username == "" || password == "" then MissingCredentials
    else if adminUsername != Some(username) then InvalidCredentials
    else if !passwordMatches(password) then InvalidCredentials
    else LoggedIn(username)
  }

  /** Without a configured admin username, nobody can log in. */
  lemma NoAdminNoLogin(username: string, password: string, passwordMatches: string -> bool)
    ensures !Login(username, password, None, passwordMatches).LoggedIn?
  {
  }

  /** Outcome of GET /admin/session: never an error, only logged in or not. */
  datatype SessionInfo = LoggedOut | Active(user: string)

  /** The session probe reads only the cookie, and reports logged-out whenever the token is missing or rejected. */
  function Session(cookieToken: string, verify: string -> Option<string>): (s: SessionInfo)
    ensures s.Active? <==> cookieToken != "" && verify(cookieToken).Some?
    ensures s.Active? ==> verify(cookieToken) == Some(s.user)
  {
    if cookieToken == "" then LoggedOut
    else match verify(cookieToken)
      case None => LoggedOut
      case Some(user) => Active(user)
  }

  /**
   * The session probe and the middleware agree for cookie-only requests:
   * the session is active exactly when admin routes admit the request, and
   * for the same user. (A header token is honoured only by the middleware.)
   */
  lemma SessionAgreesWithAdminAuth(cookieToken: string, verify: string -> Option<string>)
    ensures Session(cookieToken, verify).Active? <==> AdminAuth(cookieToken, "", verify).Admitted?
    ensures Session(cookieToken, verify).Active? ==> Session(cookieToken, verify).user == AdminAuth(cookieToken, "", verify).user
  {
  }

  /** After logout the cookie is cleared, so the session probe reports logged-out and admin routes answer 401 unless a header token is sent. */
  lemma AfterLogout(verify: string -> Option<string>)
    ensures Session("", verify) == LoggedOut
    ensures AdminAuth("", "", verify) == Unauthorized
  {
  }
}

=== FILE: console.dfy ===
/**
 * The admin page's state (client/script.js): the global `submissions`
 * list, the id the verification modal is open on, and what the page shows
 * (the table rows, in order, and the dashboard counters).
 *
 * `renderSubmissions` sorts the array it is given in place, so rendering
 * the global list reorders the global list itself; the filter view sorts
 * a copy. The server's answer (`data.success`) and the form inputs are
 * parameters: the network and the DOM are not part of this model.
 */
module Console {
  import opened Wrappers
  import opened Schema
  import opened Text
  import opened View

  class AdminConsole {
    /** The global `submissions` list. */
    var submissions: array<Submission>
    /** `currentSubmissionId`; `None` is `null`. */
    var currentSubmissionId: Option<int>
    /** The rows of the table, top to bottom. */
    var shown: seq<Submission>
    /** The dashboard counters. */
    var stats: Stats

    /** The page as loaded: an empty list, no modal open. */
    constructor ()
      ensures submissions.Length == 0 && currentSubmissionId == None
      ensures shown == [] && stats == UpdateStats([])
    {
      submissions := new Submission[0];
      currentSubmissionId := None;
      shown := [];
      stats := UpdateStats([]);
    }

    /**
     * The comparator of `renderSubmissions` applied by a stable in-place
     * sort: afterwards the array holds the same records, by lower-cased
     * name.
     */
    static method SortByName(a: array<Submission>)
      modifies a
      ensures NameOrdered(a[..])
      ensures multiset(a[..]) == multiset(old(a[..]))
    {
      if a.Length == 0 {
        return;
      }
      var i := 1;
      while i < a.Length
        invariant 1 <= i <= a.Length
        invariant OrderedBelow(a[..], i)
        invariant multiset(a[..]) == multiset(old(a[..]))
      {
        InsertLast(a, i);
        i := i + 1;
      }
    }

    /**
     * One insertion step: with the first `i` records in order, moves
     * record `i` up past every record whose name comes strictly after it.
     */
    static method InsertLast(a: array<Submission>, i: int)
      requires 0 < i < a.Length && OrderedBelow(a[..], i)
      modifies a
      ensures OrderedBelow(a[..], i + 1)
      ensures multiset(a[..]) == multiset(old(a[..]))
      ensures a[i + 1..] == old(a[i + 1..])
    {
      var j := i;
      while 0 < j && NameBefore(a[j], a[j - 1])
        invariant 0 <= j <= i
        invariant forall k :: 0 < k < j ==> !NameBefore(a[k], a[k - 1])
        invariant forall k :: j < k <= i ==> !NameBefore(a[k], a[k - 1])
        invariant 0 < j < i ==> !NameBefore(a[j + 1], a[j - 1])
        invariant multiset(a[..]) == multiset(old(a[..]))
        invariant a[i + 1..] == old(a[i + 1..])
      {
        LexLessAsymmetric(NameKey(a[j]), NameKey(a[j - 1]));
        Swap(a, j - 1, j);
        j := j - 1;
      }
    }

    /** Exchanges two records of the array. */
    static method Swap(a: array<Submission>, x: int, y: int)
      requires 0 <= x < y < a.Length
      modifies a
      ensures a[..] == old(a[..])[x := old(a[y])][y := old(a[x])]
      ensures multiset(a[..]) == multiset(old(a[..]))
    {
      a[x], a[y] := a[y], a[x];
    }

    /** A fresh array holding the records of `s`, as `[...s]` and `filter` build. */
    static method FromSeq(s: seq<Submission>) returns (a: array<Submission>)
      ensures fresh(a) && a[..] == s
    {
      a := new Submission[|s|](i requires 0 <= i < |s| => s[i]);
    }

    /** `renderSubmissions(data)`: sorts `data` in place and shows it. */
    method RenderSubmissions(data: array<Submission>)
      modifies data, this`shown
      ensures NameOrdered(data[..]) && multiset(data[..]) == multiset(old(data[..]))
      ensures shown == data[..]
    {
      if data.Length == 0 {
        shown := [];
        return;
      }
      SortByName(data);
      shown := data[..];
    }

    /** `findIndex` on the global list: the first position holding `id`, or -1. */
    method FindIndex(id: int) returns (idx: int)
      ensures -1 <= idx < submissions.Length
      ensures idx == -1 <==> forall j :: 0 <= j < submissions.Length ==> submissions[j].id != id
      ensures idx != -1 ==> idx == FirstIndex(submissions[..], id) && submissions[idx].id == id
    {
      var i := 0;
      while i < submissions.Length
        invariant 0 <= i <= submissions.Length
        invariant forall j :: 0 <= j < i ==> submissions[j].id != id
      {
        if submissions[i].id == id {
          FirstIndexIsFirst(submissions[..], id, i);
          return i;
        }
        i := i + 1;
      }
      FirstIndexIsFirst(submissions[..], id, submissions.Length);
      idx := -1;
    }

    /**
     * `fetchSubmissions` once the server has answered: the loader has
     * already emptied the table; on success the list is replaced, shown
     * sorted and counted, and on failure the table stays empty.
     */
    method LoadSubmissions(success: bool, data: seq<Submission>)
      modifies this
      ensures !success ==> submissions == old(submissions) && shown == [] && stats == old(stats)
      ensures success ==> fresh(submissions) && multiset(submissions[..]) == multiset(data)
      ensures success ==> NameOrdered(submissions[..]) && shown == submissions[..]
      ensures success ==> stats == UpdateStats(data)
      ensures currentSubmissionId == old(currentSubmissionId)
    {
      shown := [];
      if !success {
        return;
      }
      submissions := FromSeq(data);
      RenderSubmissions(submissions);
      stats := UpdateStats(submissions[..]);
      StatsIgnoreOrder(submissions[..], data);
    }

    /**
     * `filterSubmissions`: shows a sorted copy of the records the search
     * and the status filter keep, counts the whole list, and leaves the
     * global list alone.
     */
    method ShowFiltered(searchInput: string, statusFilter: string)
      modifies this`shown, this`stats
      ensures submissions[..] == old(submissions[..])
      ensures multiset(shown) == multiset(FilterSubmissions(submissions[..], searchInput, statusFilter))
      ensures NameOrdered(shown)
      ensures stats == UpdateStats(submissions[..])
    {
      var kept := FilterSubmissions(submissions[..], searchInput, statusFilter);
      var filtered := FromSeq(kept);
      RenderSubmissions(filtered);
      stats := UpdateStats(submissions[..]);
    }

    /**
     * `updateSubmissionStatus`: the first record with `id` takes the new
     * status (an unknown id changes nothing), then the global list is
     * re-sorted in place, shown and counted.
     */
    method UpdateSubmissionStatus(id: int, newStatus: string)
      modifies submissions, this`shown, this`stats
      ensures multiset(submissions[..]) == multiset(PatchStatus(old(submissions[..]), id, newStatus))
      ensures NameOrdered(submissions[..]) && shown == submissions[..]
      ensures stats == UpdateStats(PatchStatus(old(submissions[..]), id, newStatus))
    {
      ghost var patched := PatchStatus(submissions[..], id, newStatus);
      var idx := FindIndex(id);
      if idx != -1 {
        submissions[idx] := submissions[idx].(status := newStatus);
      }
      assert submissions[..] == patched;
      RenderSubmissions(submissions);
      stats := UpdateStats(submissions[..]);
      StatsIgnoreOrder(submissions[..], patched);
    }

    /** `openVerificationModal`: remembers `id` when the list holds it, and otherwise does nothing. */
    method OpenVerificationModal(id: int)
      modifies this`currentSubmissionId
      ensures (exists i :: 0 <= i < submissions.Length && submissions[i].id == id) ==> currentSubmissionId == Some(id)
      ensures (forall i :: 0 <= i < submissions.Length ==> submissions[i].id != id) ==> currentSubmissionId == old(currentSubmissionId)
    {
      var idx := FindIndex(id);
      if idx == -1 {
        assert forall i :: 0 <= i < submissions.Length ==> submissions[i].id != id;
        return;
      }
      currentSubmissionId := Some(id);
      assert submissions[idx].id == id;
    }

    /** `closeVerificationModal`: forgets the id. */
    method CloseVerificationModal()
      modifies this`currentSubmissionId
      ensures currentSubmissionId == None
    {
      currentSubmissionId := None;
    }

    /**
     * `verifySubmission`: nothing while no id is remembered (`!currentSubmissionId`,
     * which also holds of id 0); otherwise, when the server accepts
     * POST /verify/:id, the record turns "verified", the modal closes and
     * the filtered table is redrawn.
     */
    method VerifySubmission(success: bool, searchInput: string, statusFilter: string)
      modifies this, submissions
      ensures old(currentSubmissionId).None? || old(currentSubmissionId) == Some(0) || !success ==>
        && submissions == old(submissions) && submissions[..] == old(submissions[..])
        && currentSubmissionId == old(currentSubmissionId) && shown == old(shown) && stats == old(stats)
      ensures old(currentSubmissionId).Some? && old(currentSubmissionId) != Some(0) && success ==>
        && submissions == old(submissions)
        && multiset(submissions[..]) == multiset(PatchStatus(old(submissions[..]), old(currentSubmissionId).value, Verified))
        && NameOrdered(submissions[..])
        && currentSubmissionId == None
        && multiset(shown) == multiset(FilterSubmissions(submissions[..], searchInput, statusFilter))
        && NameOrdered(shown)
        && stats == UpdateStats(submissions[..])
    {
      if currentSubmissionId.None? || currentSubmissionId == Some(0) {
        return;
      }
      if !success {
        return;
      }
      UpdateSubmissionStatus(currentSubmissionId.value, Verified);
      CloseVerificationModal();
      ShowFiltered(searchInput, statusFilter);
    }

    /** `checkInUser` and `uncheckUser`: when the server accepts the route, the record takes its new status and the filtered table is redrawn. */
    method ApplyRoute(id: int, newStatus: string, success: bool, searchInput: string, statusFilter: string)
      modifies this`shown, this`stats, submissions
      ensures !success ==> submissions[..] == old(submissions[..]) && shown == old(shown) && stats == old(stats)
      ensures success ==>
        && multiset(submissions[..]) == multiset(PatchStatus(old(submissions[..]), id, newStatus))
        && NameOrdered(submissions[..])
        && multiset(shown) == multiset(FilterSubmissions(submissions[..], searchInput, statusFilter))
        && NameOrdered(shown)
        && stats == UpdateStats(submissions[..])
    {
      if !success {
        return;
      }
      UpdateSubmissionStatus(id, newStatus);
      ShowFiltered(searchInput, statusFilter);
    }

    /** `checkInUser(id)`: on success the record turns "checked_in". */
    method CheckInUser(id: int, success: bool, searchInput: string, statusFilter: string)
      modifies this`shown, this`stats, submissions
      ensures !success ==> submissions[..] == old(submissions[..]) && shown == old(shown) && stats == old(stats)
      ensures success ==>
        && multiset(submissions[..]) == multiset(PatchStatus(old(submissions[..]), id, CheckedIn))
        && NameOrdered(submissions[..])
        && multiset(shown) == multiset(FilterSubmissions(submissions[..], searchInput, statusFilter))
        && NameOrdered(shown)
        && stats == UpdateStats(submissions[..])
    {
      ApplyRoute(id, CheckedIn, success, searchInput, statusFilter);
    }

    /** `uncheckUser(id)`, after the confirmation: on success the record turns back to "verified". */
    method UncheckUser(id: int, success: bool, searchInput: string, statusFilter: string)
      modifies this`shown, this`stats, submissions
      ensures !success ==> submissions[..] == old(submissions[..]) && shown == old(shown) && stats == old(stats)
      ensures success ==>
        && multiset(submissions[..]) == multiset(PatchStatus(old(submissions[..]), id, Verified))
        && NameOrdered(submissions[..])
        && multiset(shown) == multiset(FilterSubmissions(submissions[..], searchInput, statusFilter))
        && NameOrdered(shown)
        && stats == UpdateStats(submissions[..])
    {
      ApplyRoute(id, Verified, success, searchInput, statusFilter);
    }
  }

  /** The first `n` records are in name order (neighbour by neighbour). */
  ghost predicate OrderedBelow(s: seq<Submission>, n: int) {
    forall k :: 0 < k < n && k < |s| ==> !NameBefore(s[k], s[k - 1])
  }

  /** `FirstIndex` is the first position holding the id, so a scan that stops there agrees with it. */
  lemma {:induction false} FirstIndexIsFirst(s: seq<Submission>, id: int, i: int)
    requires 0 <= i <= |s|
    requires forall j :: 0 <= j < i ==> s[j].id != id
    requires i < |s| ==> s[i].id == id
    ensures FirstIndex(s, id) == i
  {
    if i > 0 {
      FirstIndexIsFirst(s[1..], id, i - 1);
    }
  }
}

=== FILE: phone.dfy ===
/**
 * Phone canonicalisation for Nigerian numbers (`normalizePhone` in
 * server.js). The canonical form is the key on which one submission per
 * phone is enforced.
 */
module Phone {
  import opened Text

  /**
   * Remove all white space, then: keep a leading "+234", prefix "+" to a
   * leading "234", replace a leading "0" with "+234", and otherwise leave
   * the number as it is.
   */
  function NormalizePhone(phone: string): (r: string)
    ensures NoSpaces(r)
  {
    Canonical(StripSpaces(phone))
  }

  /** The prefix rules, applied to a number already free of white space. */
  function Canonical(p: string): string {
    if StartsWith(p, "+234") then p
    else if StartsWith(p, "234") then "+" + p
    else if StartsWith(p, "0") then "+234" + p[1..]
    else p
  }

  /** The three spellings of a national number (trunk "0", "234", "+234") share one canonical form. */
  lemma NormalizeAgreesOnSpellings(national: string)
    ensures NormalizePhone("0" + national) == "+234" + StripSpaces(national)
    ensures NormalizePhone("234" + national) == "+234" + StripSpaces(national)
    ensures NormalizePhone("+234" + national) == "+234" + StripSpaces(national)
  {
    NormalizeTrunkSpelling(national);
    NormalizeCountryCodeSpelling(national);
    NormalizePlusSpelling(national);
  }

  lemma NormalizeTrunkSpelling(national: string)
    ensures NormalizePhone("0" + national) == "+234" + StripSpaces(national)
  {
    StripPrefixed("0", national);
    CanonicalTrunk(StripSpaces(national));
  }

  lemma NormalizeCountryCodeSpelling(national: string)
    ensures NormalizePhone("234" + national) == "+234" + StripSpaces(national)
  {
    StripPrefixed("234", national);
    CanonicalCountryCode(StripSpaces(national));
  }

  lemma NormalizePlusSpelling(national: string)
    ensures NormalizePhone("+234" + national) == "+234" + StripSpaces(national)
  {
    StripPrefixed("+234", national);
    CanonicalPlusCountryCode(StripSpaces(national));
  }

  lemma CanonicalTrunk(n: string)
    ensures Canonical("0" + n) == "+234" + n
  {
    var p := "0" + n;
    assert p[0] == '0';
    assert p[..1] == "0";
    assert !StartsWith(p, "+234") && !StartsWith(p, "234");
    assert p[1..] == n;
  }

  lemma CanonicalCountryCode(n: string)
    ensures Canonical("234" + n) == "+234" + n
  {
    var p := "234" + n;
    assert p[0] == '2';
    assert p[..3] == "234";
    assert !StartsWith(p, "+234");
    assert "+" + p == "+234" + n;
  }

  lemma CanonicalPlusCountryCode(n: string)
    ensures Canonical("+234" + n) == "+234" + n
  {
    assert ("+234" + n)[..4] == "+234";
  }

  /** A prefix without white space survives stripping. */
  lemma StripPrefixed(prefix: string, rest: string)
    requires NoSpaces(prefix)
    ensures StripSpaces(prefix + rest) == prefix + StripSpaces(rest)
  {
    StripSpacesOfClean(prefix);
    StripSpacesAppend(prefix, rest);
  }

  /**
   * What the canonicaliser does, in terms of the number with its white
   * space removed: "0..." becomes "+234..." (the trunk zero dropped),
   * "234..." gains a "+", and anything else, "+234..." included, is kept.
   */
  lemma NormalizeByPrefix(phone: string)
    ensures var p := StripSpaces(phone);
      && (StartsWith(p, "0") ==> NormalizePhone(phone) == "+234" + p[1..])
      && (StartsWith(p, "234") ==> NormalizePhone(phone) == "+" + p)
      && (!StartsWith(p, "0") && !StartsWith(p, "234") ==> NormalizePhone(phone) == p)
  {
  }

  /** Every number the canonicaliser rewrites comes out in international "+234" form. */
  lemma NormalizeInternational(phone: string)
    requires NormalizePhone(phone) != StripSpaces(phone)
    ensures StartsWith(NormalizePhone(phone), "+234")
  {
  }

  /** Canonicalising twice gives the same result as canonicalising once. */
  lemma NormalizeIdempotent(phone: string)
    ensures NormalizePhone(NormalizePhone(phone)) == NormalizePhone(phone)
  {
    var r := NormalizePhone(phone);
    StripSpacesOfClean(r);
    CanonicalIdempotent(StripSpaces(phone));
  }

  lemma CanonicalIdempotent(p: string)
    ensures Canonical(Canonical(p)) == Canonical(p)
  {
    var r := Canonical(p);
    if StartsWith(p, "234") && !StartsWith(p, "+234") {
      assert r[..4] == "+" + p[..3];
    } else if StartsWith(p, "0") && !StartsWith(p, "+234") && !StartsWith(p, "234") {
      assert r[..4] == "+234";
    }
  }

  /** The documented example: "0803 123 4567" becomes "+2348031234567". */
  lemma NormalizeExample()
    ensures NormalizePhone("0803 123 4567") == "+2348031234567"
  {
    var a, b, c := "0803", "123", "4567";
    assert NoSpaces(a) && NoSpaces(b) && NoSpaces(c);
    assert a[0] == '0' && a[1..] == "803";
    NormalizeSpacedTrunk(a, b, c);
    assert a + (" " + (b + (" " + c))) == "0803 123 4567";
    assert "+234" + ("803" + (b + c)) == "+2348031234567";
  }

  /** A trunk-prefixed number written in three space-separated groups. */
  lemma NormalizeSpacedTrunk(a: string, b: string, c: string)
    requires NoSpaces(a) && NoSpaces(b) && NoSpaces(c)
    requires StartsWith(a, "0")
    ensures NormalizePhone(a + (" " + (b + (" " + c)))) == "+234" + (a[1..] + (b + c))
  {
    var x := a + (" " + (b + (" " + c)));
    var p := a + (b + c);
    StripGroups(a, b, c);
    assert p[..1] == a[..1];
    NormalizeByPrefix(x);
    assert p[1..] == a[1..] + (b + c);
  }

  lemma StripGroups(a: string, b: string, c: string)
    requires NoSpaces(a) && NoSpaces(b) && NoSpaces(c)
    ensures StripSpaces(a + (" " + (b + (" " + c)))) == a + (b + c)
  {
    StripOneSpace(b, c);
    StripSpacesOfClean(c);
    StripOneSpace(a, b + (" " + c));
  }

  lemma StripOneSpace(a: string, x: string)
    requires NoSpaces(a)
    ensures StripSpaces(a + (" " + x)) == a + StripSpaces(x)
  {
    StripSpacesOfClean(a);
    StripSpacesAppend(a, " " + x);
    assert (" " + x)[0] == ' ';
    assert (" " + x)[1..] == x;
  }

  /** A phone made only of white space is not rejected by the canonicaliser: it becomes the empty string. */
  lemma NormalizeBlank(phone: string)
    requires forall i :: 0 <= i < |phone| ==> IsSpace(phone[i])
    ensures NormalizePhone(phone) == ""
  {
    StripSpacesOfBlank(phone);
  }
}

=== FILE: schema.dfy ===
/**
 * The `submissions` table (src/database/schema.js): one row per attendee,
 * with a serial integer key, a unique phone and a status that defaults to
 * "pending".
 *
 * Every text column is a string; a value that JavaScript would hold as
 * `null` or `undefined` is represented by the empty string. Every test the
 * application makes on these fields is either a truthiness test, which all
 * three fail, or a strict comparison (`===`) with a non-empty value, which
 * all three fail too: a literal in the counters, and the status select's
 * value in the status filter, whose options are taken to be non-empty. So
 * the three are never told apart.
 */
module Schema {

  const Pending: string := "pending"
  const Verified: string := "verified"
  const CheckedIn: string := "checked_in"

  /** The three statuses the server ever writes. */
  predicate KnownStatus(status: string) {
    status == Pending || status == Verified || status == CheckedIn
  }

  datatype Submission = Submission(
    id: int,
    name: string,
    phone: string,
    screenshot: string,
    screenshotPublicId: string,
    status: string)
}

=== FILE: store.dfy ===
/**
 * The submission routes of server.js over the `submissions` table:
 * intake (POST /submit), listing (GET /submissions) and the three status
 * transitions (POST /verify/:id, /checkin/:id, /uncheckin/:id).
 *
 * The table is an in-memory map from id to record; `nextId` plays the
 * serial primary key. Requests are handled one at a time, so the lookup
 * by phone before the insert is what keeps phones unique (the database
 * constraint would catch a concurrent duplicate).
 */
module Store {
  import opened Wrappers
  import opened Schema
  import opened Phone
  import opened Auth

  /** What the upload middleware hands the submit route: the hosted URL and the host's public id. */
  datatype Upload = Upload(url: string, publicId: string)

  datatype Body = NoData | Record(record: Submission) | Records(records: seq<Submission>)

  /** An HTTP reply: status code, the `message` field and the `data` field. */
  datatype Reply = Reply(code: int, message: string, body: Body)

  const MissingFieldsMessage: string := "Please provide your name, phone number, and screenshot."
  const DuplicatePhoneMessage: string := "You have already submitted with this phone number."
  const SubmittedMessage: string := "Payment submitted successfully."
  const ListedMessage: string := "All submissions retrieved successfully."
  const NotFoundMessage: string := "Submission not found"
  const VerifiedMessage: string := "Submission marked as verified."

  /** The reply of `adminAuth` when it stops a request. */
  function Denied(d: AuthDecision): (r: Reply)
    requires !d.Admitted?
    ensures r.code == AuthCode(d) && r.body == NoData
  {
    if d.Unauthorized? then Reply(401, "Unauthorized", NoData) else Reply(403, "Invalid token", NoData)
  }

  /** The submit guard `!name || !phone || !screenshotUrl`. */
  predicate MissingFields(name: string, phone: string, upload: Option<Upload>) {
    name == "" || phone == "" || upload.None? || upload.value.url == ""
  }

  /** Some record already holds this (normalised) phone. */
  predicate PhoneTaken(rows: map<int, Submission>, phone: string) {
    exists id :: id in rows && rows[id].phone == phone
  }

  /** At most one record per phone: the unique constraint on the phone column. */
  ghost predicate PhonesUnique(rows: map<int, Submission>) {
    forall a, b :: a in rows && b in rows && rows[a].phone == rows[b].phone ==> a == b
  }

  /** `records` holds every row of the table once and nothing else, by ascending id. */
  ghost predicate ListsExactly(records: seq<Submission>, rows: map<int, Submission>) {
    && (forall i :: 0 <= i < |records| ==> records[i].id in rows && rows[records[i].id] == records[i])
    && (forall i, j :: 0 <= i < j < |records| ==> records[i].id < records[j].id)
    && (forall id :: id in rows ==> rows[id] in records)
  }

  /** What every stored record satisfies: a name and a screenshot, and one of the three statuses. */
  predicate WellFormed(rec: Submission) {
    rec.name != "" && rec.screenshot != "" && KnownStatus(rec.status)
  }

  class SubmissionStore {
    var rows: map<int, Submission>
    var nextId: int

    ghost predicate Valid()
      reads this
    {
      && 1 <= nextId
      && (forall id :: id in rows ==> 1 <= id < nextId && rows[id].id == id && WellFormed(rows[id]))
      && PhonesUnique(rows)
    }

    constructor ()
      ensures Valid() && rows == map[] && nextId == 1
    {
      rows := map[];
      nextId := 1;
    }

    /**
     * POST /submit: 400 when a field is missing, 400 when the normalised
     * phone is already on file, and otherwise one new "pending" record
     * under the next id, returned with 201.
     */
    method Submit(name: string, phone: string, upload: Option<Upload>) returns (reply: Reply)
      requires Valid()
      modifies this
      ensures Valid()
      ensures MissingFields(name, phone, upload) ==>
        reply == Reply(400, MissingFieldsMessage, NoData) && rows == old(rows) && nextId == old(nextId)
      ensures !MissingFields(name, phone, upload) && PhoneTaken(old(rows), NormalizePhone(phone)) ==>
        reply == Reply(400, DuplicatePhoneMessage, NoData) && rows == old(rows) && nextId == old(nextId)
      ensures !MissingFields(name, phone, upload) && !PhoneTaken(old(rows), NormalizePhone(phone)) ==>
        var rec := Submission(old(nextId), name, NormalizePhone(phone), upload.value.url, upload.value.publicId, Pending);
        && old(nextId) !in old(rows)
        && rows == old(rows)[old(nextId) := rec]
        && nextId == old(nextId) + 1
        && reply == Reply(201, SubmittedMessage, Record(rec))
    {
      if MissingFields(name, phone, upload) {
        return Reply(400, MissingFieldsMessage, NoData);
      }
      var normalized := NormalizePhone(phone);
      if PhoneTaken(rows, normalized) {
        return Reply(400, DuplicatePhoneMessage, NoData);
      }
      var rec := Submission(nextId, name, normalized, upload.value.url, upload.value.publicId, Pending);
      rows := rows[nextId := rec];
      nextId := nextId + 1;
      reply := Reply(201, SubmittedMessage, Record(rec));
    }

    /**
     * GET /submissions: behind `adminAuth`, every record exactly once. The
     * query has no ORDER BY; this model lists the records by ascending id.
     */
    method ListSubmissions(auth: AuthDecision) returns (reply: Reply)
      requires Valid()
      ensures !auth.Admitted? ==> reply == Denied(auth)
      ensures auth.Admitted? ==> reply.code == 200 && reply.message == ListedMessage && reply.body.Records?
      ensures auth.Admitted? ==> ListsExactly(reply.body.records, rows)
    {
      if !auth.Admitted? {
        return Denied(auth);
      }
      var listed: seq<Submission> := [];
      var id := 1;
      while id < nextId
        invariant 1 <= id <= nextId
        invariant forall i :: 0 <= i < |listed| ==> listed[i].id in rows && rows[listed[i].id] == listed[i] && listed[i].id < id
        invariant forall i, j :: 0 <= i < j < |listed| ==> listed[i].id < listed[j].id
        invariant forall k :: k in rows && k < id ==> rows[k] in listed
      {
        if id in rows {
          listed := listed + [rows[id]];
        }
        id := id + 1;
      }
      reply := Reply(200, ListedMessage, Records(listed));
    }

    /** The `update ... set status where id` step shared by the transitions. */
    method SetStatus(id: int, status: string)
      requires Valid() && id in rows && KnownStatus(status)
      modifies this`rows
      ensures Valid()
      ensures rows == old(rows)[id := old(rows)[id].(status := status)]
    {
      rows := rows[id := rows[id].(status := status)];
    }

    /** POST /verify/:id: behind `adminAuth`; 404 for an unknown id; otherwise "verified", whatever the status was. */
    method Verify(auth: AuthDecision, id: int) returns (reply: Reply)
      requires Valid()
      modifies this
      ensures Valid() && nextId == old(nextId)
      ensures !auth.Admitted? ==> reply == Denied(auth) && rows == old(rows)
      ensures auth.Admitted? && id !in old(rows) ==> reply == Reply(404, NotFoundMessage, NoData) && rows == old(rows)
      ensures auth.Admitted? && id in old(rows) ==>
        var updated := old(rows)[id].(status := Verified);
        rows == old(rows)[id := updated] && reply == Reply(200, VerifiedMessage, Record(updated))
    {
      if !auth.Admitted? {
        return Denied(auth);
      }
      if id !in rows {
        return Reply(404, NotFoundMessage, NoData);
      }
      var before := rows[id];
      SetStatus(id, Verified);
      reply := Reply(200, VerifiedMessage, Record(before.(status := Verified)));
    }

    /** POST /checkin/:id: behind `adminAuth`; 404 for an unknown id; otherwise "checked_in", whatever the status was. */
    method CheckIn(auth: AuthDecision, id: int) returns (reply: Reply)
      requires Valid()
      modifies this
      ensures Valid() && nextId == old(nextId)
      ensures !auth.Admitted? ==> reply == Denied(auth) && rows == old(rows)
      ensures auth.Admitted? && id !in old(rows) ==> reply == Reply(404, NotFoundMessage, NoData) && rows == old(rows)
      ensures auth.Admitted? && id in old(rows) ==>
        var updated := old(rows)[id].(status := CheckedIn);
        && rows == old(rows)[id := updated]
        && reply == Reply(200, old(rows)[id].name + " checked in successfully.", Record(updated))
    {
      if !auth.Admitted? {
        return Denied(auth);
      }
      if id !in rows {
        return Reply(404, NotFoundMessage, NoData);
      }
      var before := rows[id];
      SetStatus(id, CheckedIn);
      reply := Reply(200, before.name + " checked in successfully.", Record(before.(status := CheckedIn)));
    }

    /** POST /uncheckin/:id: behind `adminAuth`; 404 for an unknown id; otherwise back to "verified", whatever the status was. */
    method UncheckIn(auth: AuthDecision, id: int) returns (reply: Reply)
      requires Valid()
      modifies this
      ensures Valid() && nextId == old(nextId)
      ensures !auth.Admitted? ==> reply == Denied(auth) && rows == old(rows)
      ensures auth.Admitted? && id !in old(rows) ==> reply == Reply(404, NotFoundMessage, NoData) && rows == old(rows)
      ensures auth.Admitted? && id in old(rows) ==>
        var updated := old(rows)[id].(status := Verified);
        && rows == old(rows)[id := updated]
        && reply == Reply(200, old(rows)[id].name + " unchecked in successfully.", Record(updated))
    {
      if !auth.Admitted? {
        return Denied(auth);
      }
      if id !in rows {
        return Reply(404, NotFoundMessage, NoData);
      }
      var before := rows[id];
      SetStatus(id, Verified);
      reply := Reply(200, before.name + " unchecked in successfully.", Record(before.(status := Verified)));
    }
  }

  /**
   * verify, then checkin, then uncheckin on a pending record drives it
   * pending -> verified -> checked_in -> verified, each reply carrying the
   * new status, and leaves every other record as it was.
   */
  method VerifyCheckInUncheck(store: SubmissionStore, admin: string, id: int) returns (r1: Reply, r2: Reply, r3: Reply)
    requires store.Valid() && id in store.rows && store.rows[id].status == Pending
    modifies store
    ensures store.Valid()
    ensures r1.code == 200 && r1.body.Record? && r1.body.record.status == Verified
    ensures r2.code == 200 && r2.body.Record? && r2.body.record.status == CheckedIn
    ensures r3.code == 200 && r3.body.Record? && r3.body.record.status == Verified
    ensures store.rows == old(store.rows)[id := old(store.rows)[id].(status := Verified)]
  {
    r1 := store.Verify(Admitted(admin), id);
    r2 := store.CheckIn(Admitted(admin), id);
    r3 := store.UncheckIn(Admitted(admin), id);
  }

  /**
   * Two submissions whose phones normalise alike (such as "0803 123 4567"
   * and "2348031234567", see Phone.NormalizeAgreesOnSpellings): the first is
   * stored, the second is refused with 400 and the table keeps exactly one
   * record for that phone.
   */
  method SubmitTwiceSamePhone(store: SubmissionStore, name: string, phone1: string, phone2: string, upload: Upload)
    returns (first: Reply, second: Reply)
    requires store.Valid() && name != "" && phone1 != "" && phone2 != "" && upload.url != ""
    requires NormalizePhone(phone1) == NormalizePhone(phone2)
    requires !PhoneTaken(store.rows, NormalizePhone(phone1))
    modifies store
    ensures store.Valid()
    ensures first.code == 201 && first.body.Record? && first.body.record.phone == NormalizePhone(phone1)
    ensures second == Reply(400, DuplicatePhoneMessage, NoData)
    ensures |store.rows| == |old(store.rows)| + 1
    ensures store.rows == old(store.rows)[first.body.record.id := first.body.record]
    ensures PhoneTaken(store.rows, NormalizePhone(phone1))
    ensures forall a, b :: a in store.rows && b in store.rows && store.rows[a].phone == NormalizePhone(phone1) == store.rows[b].phone ==> a == b
  {
    first := store.Submit(name, phone1, Some(upload));
    ghost var id := first.body.record.id;
    assert store.rows[id].phone == NormalizePhone(phone2);
    second := store.Submit(name, phone2, Some(upload));
  }
}

=== FILE: text.dfy ===
/**
 * The handful of JavaScript string operations the application relies on:
 * whitespace as `\s` matches it, `replace(/\s+/g, "")`, `trim()`,
 * `toLowerCase()`, `startsWith`, `includes`, `split(" ")[1]` and the ordering
 * used to sort names.
 *
 * Lower-casing is restricted to ASCII letters, and names are ordered
 * lexicographically by character code; both stand for the locale-aware
 * `toLowerCase` and `localeCompare` of the runtime.
 */
module Text {

  /**
   * The characters JavaScript's `\s` class (and `String.prototype.trim`)
   * treats as white space: tab, line feed, vertical tab, form feed,
   * carriage return and space, and the Unicode spaces and separators from
   * U+00A0 upwards.
   */
  predicate IsSpace(c: char) {
    if c <= ' ' then c == ' ' || ('\t' <= c <= '\r')
    else
      && '\U{00A0}' <= c
      && (|| c == '\U{00A0}' || c == '\U{1680}' || ('\U{2000}' <= c <= '\U{200A}')
          || c == '\U{2028}' || c == '\U{2029}' || c == '\U{202F}' || c == '\U{205F}'
          || c == '\U{3000}' || c == '\U{FEFF}')
  }

  predicate NoSpaces(s: string) {
    forall i :: 0 <= i < |s| ==> !IsSpace(s[i])
  }

  /** `s.replace(/\s+/g, "")`: every white-space character removed, the rest kept in order. */
  function StripSpaces(s: string): (r: string)
    ensures NoSpaces(r)
    ensures |r| <= |s|
  {
    if s == [] then []
    else if IsSpace(s[0]) then StripSpaces(s[1..])
    else [s[0]] + StripSpaces(s[1..])
  }

  /** Stripping keeps every other character, each as often as it occurs. */
  lemma {:induction false} StripSpacesKeeps(s: string, c: char)
    requires !IsSpace(c)
    ensures multiset(StripSpaces(s))[c] == multiset(s)[c]
  {
    if s != [] {
      assert s == [s[0]] + s[1..];
      StripSpacesKeeps(s[1..], c);
    }
  }

  /** Stripping a string that holds no white space gives it back unchanged. */
  lemma {:induction false} StripSpacesOfClean(s: string)
    requires NoSpaces(s)
    ensures StripSpaces(s) == s
  {
    if s != [] {
      StripSpacesOfClean(s[1..]);
    }
  }

  /** Stripping leaves nothing exactly when the string is all white space. */
  lemma {:induction false} StripSpacesOfBlank(s: string)
    ensures StripSpaces(s) == [] <==> forall i :: 0 <= i < |s| ==> IsSpace(s[i])
  {
    if s != [] {
      StripSpacesOfBlank(s[1..]);
      assert forall i :: 1 <= i < |s| ==> s[i] == s[1..][i - 1];
    }
  }

  /** Stripping distributes over concatenation. */
  lemma {:induction false} StripSpacesAppend(a: string, b: string)
    ensures StripSpaces(a + b) == StripSpaces(a) + StripSpaces(b)
  {
    if a == [] {
      assert a + b == b;
    } else {
      assert (a + b)[0] == a[0];
      assert (a + b)[1..] == a[1..] + b;
      StripSpacesAppend(a[1..], b);
    }
  }

  /** `s.trimStart()`: the leading white space removed. */
  function TrimStart(s: string): (r: string)
    ensures |r| <= |s| && r == s[|s| - |r|..]
    ensures r != [] ==> !IsSpace(r[0])
    ensures forall i :: 0 <= i < |s| - |r| ==> IsSpace(s[i])
  {
    if s == [] || !IsSpace(s[0]) then s
    else
      var r := TrimStart(s[1..]);
      assert forall i :: 1 <= i < |s| ==> s[i] == s[1..][i - 1];
      r
  }

  /** `s.trimEnd()`: the trailing white space removed. */
  function TrimEnd(s: string): (r: string)
    ensures |r| <= |s| && r == s[..|r|]
    ensures r != [] ==> !IsSpace(r[|r| - 1])
    ensures forall i :: |r| <= i < |s| ==> IsSpace(s[i])
  {
    if s == [] || !IsSpace(s[|s| - 1]) then s
    else
      var r := TrimEnd(s[..|s| - 1]);
      assert forall i :: 0 <= i < |s| - 1 ==> s[i] == s[..|s| - 1][i];
      r
  }

  /** `t` occurs in `s` starting at position `k`. */
  predicate OccursAt(s: string, t: string, k: int) {
    0 <= k && k + |t| <= |s| && s[k..k + |t|] == t
  }

  /** `s.trim()`: empty exactly when `s` is all white space, otherwise a slice of `s` without white space at either end. */
  function Trim(s: string): (r: string)
    ensures r == [] <==> forall i :: 0 <= i < |s| ==> IsSpace(s[i])
    ensures r != [] ==> !IsSpace(r[0]) && !IsSpace(r[|r| - 1])
    ensures exists k :: OccursAt(s, r, k)
    ensures exists a, b :: TrimmedTo(s, r, a, b)
  {
    var t := TrimStart(s);
    var r := TrimEnd(t);
    var k := |s| - |t|;
    TrimmedSlice(s, t, r);
    assert OccursAt(s, r, k);
    assert TrimmedTo(s, r, k, k + |r|);
    r
  }

  /** `r` is `s[a..b]`, and everything of `s` before `a` and from `b` on is white space. */
  predicate TrimmedTo(s: string, r: string, a: int, b: int) {
    && 0 <= a <= b <= |s| && r == s[a..b]
    && (forall i :: 0 <= i < a ==> IsSpace(s[i]))
    && (forall i :: b <= i < |s| ==> IsSpace(s[i]))
  }

  /** A prefix `r` of a suffix `t` of `s`, with white space after it in `t`, is a slice of `s` followed only by white space. */
  lemma TrimmedSlice(s: string, t: string, r: string)
    requires |t| <= |s| && t == s[|s| - |t|..]
    requires |r| <= |t| && r == t[..|r|]
    requires forall i :: |r| <= i < |t| ==> IsSpace(t[i])
    ensures r == s[|s| - |t|..|s| - |t| + |r|]
    ensures forall i :: |s| - |t| + |r| <= i < |s| ==> IsSpace(s[i])
  {
    var k := |s| - |t|;
    forall i | k + |r| <= i < |s| ensures IsSpace(s[i]) {
      assert s[i] == t[i - k];
    }
  }

  /** ASCII lower-casing of one character. */
  function LowerChar(c: char): char {
    if 'A' <= c <= 'Z' then (c as int + 32) as char else c
  }

  /** `s.toLowerCase()`, restricted to ASCII letters. */
  function Lower(s: string): (r: string)
    ensures |r| == |s|
    ensures forall i :: 0 <= i < |s| ==> r[i] == LowerChar(s[i])
  {
    seq(|s|, i requires 0 <= i < |s| => LowerChar(s[i]))
  }

  /** `s.startsWith(p)`. */
  predicate StartsWith(s: string, p: string) {
    |p| <= |s| && s[..|p|] == p
  }

  /** `s.includes(t)`: `t` occurs in `s` at some position. */
  function Includes(s: string, t: string): (r: bool)
    ensures r <==> exists k :: OccursAt(s, t, k)
    decreases |s|
  {
    if StartsWith(s, t) then
      assert OccursAt(s, t, 0);
      true
    else if |s| <= |t| then
      assert forall k :: OccursAt(s, t, k) ==> k == 0;
      false
    else
      var rest := Includes(s[1..], t);
      forall k | 1 <= k ensures OccursAt(s, t, k) <==> OccursAt(s[1..], t, k - 1) {
        if k + |t| <= |s| {
          SliceOfTail(s, k, k + |t|);
        }
      }
      assert rest ==> OccursAt(s, t, (var j :| OccursAt(s[1..], t, j); j + 1));
      rest
  }

  /** A slice of `s` starting after its first character is the same slice of `s[1..]`, shifted by one. */
  lemma SliceOfTail(s: string, i: int, j: int)
    requires 1 <= i <= j <= |s|
    ensures s[i..j] == s[1..][i - 1..j - 1]
  {
    assert forall m :: 0 <= m < j - i ==> s[i..j][m] == s[i + m] == s[1..][i - 1..j - 1][m];
  }

  /** The first position of `c` in `s`, or `|s|` when there is none; `split(" ")[1]` is built on it. */
  function IndexOf(s: string, c: char): (i: nat)
    ensures i <= |s|
    ensures forall k :: 0 <= k < i ==> s[k] != c
    ensures i < |s| ==> s[i] == c
  {
    if s == [] then 0
    else if s[0] == c then 0
    else 1 + IndexOf(s[1..], c)
  }

  /** Strict lexicographic order on character codes; stands for `localeCompare(...) < 0`. */
  predicate LexLess(a: string, b: string)
    decreases |a|
  {
    if a == [] then b != []
    else if b == [] then false
    else a[0] < b[0] || (a[0] == b[0] && LexLess(a[1..], b[1..]))
  }

  /** No string precedes itself. */
  lemma {:induction false} LexLessIrreflexive(a: string)
    ensures !LexLess(a, a)
  {
    if a != [] {
      LexLessIrreflexive(a[1..]);
    }
  }

  /** Two strings are never each before the other. */
  lemma {:induction false} LexLessAsymmetric(a: string, b: string)
    ensures LexLess(a, b) ==> !LexLess(b, a)
  {
    if a != [] && b != [] && a[0] == b[0] {
      LexLessAsymmetric(a[1..], b[1..]);
    }
  }

  /** "Not after" is transitive: if c precedes a, then c precedes b or b precedes a. */
  lemma {:induction false} LexLessSplits(a: string, b: string, c: string)
    ensures LexLess(c, a) ==> LexLess(c, b) || LexLess(b, a)
    decreases |a|
  {
    if a != [] && b != [] && c != [] && a[0] == b[0] && b[0] == c[0] {
      LexLessSplits(a[1..], b[1..], c[1..]);
    }
  }
}

=== FILE: view.dfy ===
/**
 * What the admin page derives from its list of submissions
 * (client/script.js): the search and status filter, the dashboard
 * counters, the badge and the action button of each row, and the order of
 * the table.
 *
 * `toLowerCase` is modelled as ASCII lower-casing and `localeCompare` as
 * lexicographic order on the lower-cased characters.
 */
module View {
  import opened Text
  import opened Schema

  /** `Array.prototype.filter`: the elements `keep` accepts, in their order. */
  function Filter<T(!new)>(s: seq<T>, keep: T -> bool): (r: seq<T>)
    ensures |r| <= |s|
    ensures forall x :: x in r <==> x in s && keep(x)
  {
    if s == [] then []
    else (if keep(s[0]) then [s[0]] else []) + Filter(s[1..], keep)
  }

  /** Filtering keeps every accepted element as often as it occurs, and drops every other one. */
  lemma {:induction false} FilterCounts<T(!new)>(s: seq<T>, keep: T -> bool, x: T)
    ensures multiset(Filter(s, keep))[x] == if keep(x) then multiset(s)[x] else 0
  {
    if s != [] {
      FilterCounts(s[1..], keep, x);
      assert s == [s[0]] + s[1..];
    }
  }

  /** Replacing one element changes the number of accepted elements by what the old and new element contribute. */
  lemma {:induction false} FilterUpdate<T(!new)>(s: seq<T>, keep: T -> bool, k: int, v: T)
    requires 0 <= k < |s|
    ensures |Filter(s[k := v], keep)| + (if keep(s[k]) then 1 else 0)
         == |Filter(s, keep)| + (if keep(v) then 1 else 0)
  {
    if k == 0 {
      assert s[k := v][1..] == s[1..];
    } else {
      assert s[k := v][1..] == s[1..][k - 1 := v];
      FilterUpdate(s[1..], keep, k - 1, v);
    }
  }

  // ----- filterSubmissions -----

  /** The search term: the input, trimmed and lower-cased. */
  function SearchKey(input: string): (r: string)
    ensures r == [] <==> forall i :: 0 <= i < |input| ==> IsSpace(input[i])
    ensures |r| <= |input|
  {
    Lower(Trim(input))
  }

  /** The search predicate: a name or a phone that contains the term, ignoring case. */
  function MatchesTerm(term: string): Submission -> bool {
    (sub: Submission) => (sub.name != "" && Includes(Lower(sub.name), term))
        || (sub.phone != "" && Includes(Lower(sub.phone), term))
  }

  /** The status predicate: exactly this status. */
  function StatusIs(status: string): Submission -> bool {
    (sub: Submission) => sub.status == status
  }

  /** Whether a record is on screen for this search input and status filter. */
  ghost predicate Shown(sub: Submission, input: string, statusFilter: string) {
    && (SearchKey(input) == []
        || (exists k :: OccursAt(Lower(sub.name), SearchKey(input), k))
        || (exists k :: OccursAt(Lower(sub.phone), SearchKey(input), k)))
    && (statusFilter == "all" || sub.status == statusFilter)
  }

  /** A non-empty term matches exactly when it occurs in the lower-cased name or phone. */
  lemma MatchesTermMeans(term: string, sub: Submission)
    requires term != []
    ensures MatchesTerm(term)(sub) <==>
      (exists k :: OccursAt(Lower(sub.name), term, k)) || (exists k :: OccursAt(Lower(sub.phone), term, k))
  {
  }

  /** Whether a record is shown, stated with the two predicates the filter applies. */
  lemma ShownMeans(sub: Submission, input: string, statusFilter: string)
    ensures Shown(sub, input, statusFilter) <==>
      && (SearchKey(input) == [] || MatchesTerm(SearchKey(input))(sub))
      && (statusFilter == "all" || StatusIs(statusFilter)(sub))
  {
    if SearchKey(input) != [] {
      MatchesTermMeans(SearchKey(input), sub);
    }
  }

  /**
   * The records `filterSubmissions` hands to the table: the search filter
   * only when the trimmed term is non-empty, then the status filter unless
   * it is "all". Each kept record is kept as often as it occurs.
   */
  function FilterSubmissions(subs: seq<Submission>, input: string, statusFilter: string): (r: seq<Submission>)
    ensures forall sub :: multiset(r)[sub] == if Shown(sub, input, statusFilter) then multiset(subs)[sub] else 0
    ensures forall sub :: sub in r <==> sub in subs && Shown(sub, input, statusFilter)
  {
    var term := SearchKey(input);
    var byTerm := if term != [] then Filter(subs, MatchesTerm(term)) else subs;
    var r := if statusFilter != "all" then Filter(byTerm, StatusIs(statusFilter)) else byTerm;
    assert forall sub :: multiset(r)[sub] == if Shown(sub, input, statusFilter) then multiset(subs)[sub] else 0 by {
      forall sub
        ensures multiset(r)[sub] == if Shown(sub, input, statusFilter) then multiset(subs)[sub] else 0
      {
        ShownMeans(sub, input, statusFilter);
        if term != [] {
          FilterCounts(subs, MatchesTerm(term), sub);
        }
        if statusFilter != "all" {
          FilterCounts(byTerm, StatusIs(statusFilter), sub);
        }
      }
    }
    r
  }

  /** An empty search and the "all" filter show the whole list. */
  lemma NoFilterShowsAll(subs: seq<Submission>)
    ensures FilterSubmissions(subs, "", "all") == subs
  {
  }

  // ----- updateStats -----

  /** The dashboard counters. */
  datatype Stats = Stats(total: nat, verified: nat, pending: nat, checkedIn: nat)

  /** The number of records with exactly this status. */
  function CountStatus(subs: seq<Submission>, status: string): (n: nat)
    ensures n <= |subs|
  {
    |Filter(subs, StatusIs(status))|
  }

  /** `updateStats`: the list length and, per status, the records with exactly that status. */
  function UpdateStats(subs: seq<Submission>): (r: Stats)
    ensures r.total == |subs|
    ensures r.verified <= r.total && r.pending <= r.total && r.checkedIn <= r.total
  {
    Stats(|subs|, CountStatus(subs, Verified), CountStatus(subs, Pending), CountStatus(subs, CheckedIn))
  }

  /**
   * The three status counters never exceed the total, and add up to it
   * exactly when every record carries one of the three statuses.
   */
  lemma {:induction false} StatsAddUp(subs: seq<Submission>)
    ensures var st := UpdateStats(subs); st.verified + st.pending + st.checkedIn <= st.total
    ensures var st := UpdateStats(subs);
      st.verified + st.pending + st.checkedIn == st.total <==> forall i :: 0 <= i < |subs| ==> KnownStatus(subs[i].status)
  {
    if subs != [] {
      StatsAddUp(subs[1..]);
      if !KnownStatus(subs[0].status) {
        assert !(forall i :: 0 <= i < |subs| ==> KnownStatus(subs[i].status));
      }
      if !(forall i :: 0 <= i < |subs[1..]| ==> KnownStatus(subs[1..][i].status)) {
        var i :| 0 <= i < |subs[1..]| && !KnownStatus(subs[1..][i].status);
        assert !KnownStatus(subs[i + 1].status);
      }
    }
  }

  /** Each status counter is the number of rows the status filter shows with an empty search. */
  lemma StatsMatchStatusFilter(subs: seq<Submission>)
    ensures UpdateStats(subs).verified == |FilterSubmissions(subs, "", Verified)|
    ensures UpdateStats(subs).pending == |FilterSubmissions(subs, "", Pending)|
    ensures UpdateStats(subs).checkedIn == |FilterSubmissions(subs, "", CheckedIn)|
  {
  }

  /** Two lists holding the same records give the same counters, whatever their order. */
  lemma StatsIgnoreOrder(a: seq<Submission>, b: seq<Submission>)
    requires multiset(a) == multiset(b)
    ensures UpdateStats(a) == UpdateStats(b)
  {
    forall status | status in {Verified, Pending, CheckedIn}
      ensures CountStatus(a, status) == CountStatus(b, status)
    {
      forall x ensures multiset(Filter(a, StatusIs(status)))[x] == multiset(Filter(b, StatusIs(status)))[x] {
        FilterCounts(a, StatusIs(status), x);
        FilterCounts(b, StatusIs(status), x);
      }
      assert multiset(Filter(a, StatusIs(status))) == multiset(Filter(b, StatusIs(status)));
      assert |multiset(Filter(a, StatusIs(status)))| == |multiset(Filter(b, StatusIs(status)))|;
    }
    assert |a| == |multiset(a)| == |multiset(b)| == |b|;
  }

  // ----- updateSubmissionStatus -----

  /** The position `findIndex` reports for an id: the first record with it, or |subs| when there is none. */
  function FirstIndex(subs: seq<Submission>, id: int): (k: nat)
    ensures k <= |subs|
    ensures k < |subs| ==> subs[k].id == id
    ensures forall j :: 0 <= j < k ==> subs[j].id != id
  {
    if subs == [] then 0
    else if subs[0].id == id then 0
    else 1 + FirstIndex(subs[1..], id)
  }

  /** The list after `updateSubmissionStatus` patches it, before the table is re-sorted. */
  function PatchStatus(subs: seq<Submission>, id: int, status: string): (r: seq<Submission>)
    ensures |r| == |subs|
    ensures forall i :: 0 <= i < |subs| && i != FirstIndex(subs, id) ==> r[i] == subs[i]
    ensures FirstIndex(subs, id) < |subs| ==>
      var k := FirstIndex(subs, id);
      r[k] == subs[k].(status := status) && r[k].status == status
    ensures (forall i :: 0 <= i < |subs| ==> subs[i].id != id) ==> r == subs
  {
    var k := FirstIndex(subs, id);
    if k < |subs| then subs[k := subs[k].(status := status)] else subs
  }

  /**
   * Patching only ever touches the `status` field: every record keeps its
   * id, name, phone and screenshot, and the ids stay in their places.
   */
  lemma PatchKeepsOtherFields(subs: seq<Submission>, id: int, status: string, i: int)
    requires 0 <= i < |subs|
    ensures var r := PatchStatus(subs, id, status);
      r[i].id == subs[i].id && r[i].name == subs[i].name && r[i].phone == subs[i].phone
      && r[i].screenshot == subs[i].screenshot && r[i].screenshotPublicId == subs[i].screenshotPublicId
  {
  }

  /**
   * Moving one record from one status to another moves exactly one unit
   * between the two counters and leaves the total alone: verifying a
   * pending record, say, gives one more verified and one fewer pending.
   */
  lemma StatsAfterPatch(subs: seq<Submission>, id: int, status: string)
    requires FirstIndex(subs, id) < |subs|
    requires subs[FirstIndex(subs, id)].status != status
    ensures var before, after := subs[FirstIndex(subs, id)].status, PatchStatus(subs, id, status);
      && |after| == |subs|
      && CountStatus(after, status) == CountStatus(subs, status) + 1
      && CountStatus(after, before) + 1 == CountStatus(subs, before)
  {
    var k := FirstIndex(subs, id);
    var before := subs[k].status;
    FilterUpdate(subs, StatusIs(status), k, subs[k].(status := status));
    FilterUpdate(subs, StatusIs(before), k, subs[k].(status := status));
  }

  /** Counters for statuses that are neither the old nor the new one do not move. */
  lemma StatsAfterPatchElsewhere(subs: seq<Submission>, id: int, status: string, other: string)
    requires FirstIndex(subs, id) < |subs|
    requires other != status && other != subs[FirstIndex(subs, id)].status
    ensures CountStatus(PatchStatus(subs, id, status), other) == CountStatus(subs, other)
  {
    var k := FirstIndex(subs, id);
    FilterUpdate(subs, StatusIs(other), k, subs[k].(status := status));
  }

  // ----- the status badge and the action button of a row -----

  /** `sub.status || "pending"`: a missing status reads as pending. */
  function EffectiveStatus(status: string): (r: string)
    ensures r != ""
    ensures status == "" ==> r == Pending
    ensures status != "" ==> r == status
  {
    if status == "" then Pending else status
  }

  /** The badge of a row: its CSS class and its label. */
  datatype Badge = Badge(cssClass: string, text: string)

  function StatusBadge(status: string): (b: Badge)
    ensures b.text == "Checked In" <==> EffectiveStatus(status) == CheckedIn
    ensures b.text == "Verified" <==> EffectiveStatus(status) == Verified
    ensures b.text == "Pending" <==> EffectiveStatus(status) != CheckedIn && EffectiveStatus(status) != Verified
  {
    var s := EffectiveStatus(status);
    if s == CheckedIn then Badge("success", "Checked In")
    else if s == Verified then Badge("verified", "Verified")
    else Badge("pending", "Pending")
  }

  /** The button a row offers, each calling one server route. */
  datatype Action = VerifyButton | CheckInButton | UncheckButton | NoButton

  /** The status the route behind a button writes: /verify and /uncheckin write "verified", /checkin "checked_in". */
  function Target(a: Action): (r: string)
    requires a != NoButton
    ensures KnownStatus(r)
    ensures r == (if a == CheckInButton then CheckedIn else Verified)
  {
    match a
    case VerifyButton => Verified
    case CheckInButton => CheckedIn
    case UncheckButton => Verified
  }

  /**
   * The button of a row: one exactly for the three statuses the server
   * writes, and then it always leads to a different status.
   */
  function ActionFor(status: string): (a: Action)
    ensures a == VerifyButton <==> EffectiveStatus(status) == Pending
    ensures a == CheckInButton <==> EffectiveStatus(status) == Verified
    ensures a == UncheckButton <==> EffectiveStatus(status) == CheckedIn
    ensures a == NoButton <==> !KnownStatus(EffectiveStatus(status))
    ensures a != NoButton ==> Target(a) != EffectiveStatus(status)
  {
    var s := EffectiveStatus(status);
    if s == Pending then VerifyButton
    else if s == Verified then CheckInButton
    else if s == CheckedIn then UncheckButton
    else NoButton
  }

  /**
   * Following the buttons from a pending row walks pending, verified,
   * checked in, and back to verified; a record never returns to pending.
   */
  lemma ButtonsWalkTheStatuses()
    ensures ActionFor(Pending) == VerifyButton
    ensures ActionFor(Target(VerifyButton)) == CheckInButton
    ensures ActionFor(Target(CheckInButton)) == UncheckButton
    ensures ActionFor(Target(UncheckButton)) == CheckInButton
    ensures forall a :: a != NoButton ==> Target(a) != Pending
  {
  }

  /** A record without a status is shown as pending and offered the Verify button. */
  lemma MissingStatusIsPending(sub: Submission)
    requires sub.status == ""
    ensures ActionFor(sub.status) == VerifyButton && StatusBadge(sub.status).text == "Pending"
  {
  }

  /** A status the server never writes shows the "Pending" badge but offers no button. */
  lemma UnknownStatusLooksPending(status: string)
    requires !KnownStatus(EffectiveStatus(status))
    ensures StatusBadge(status).text == "Pending" && ActionFor(status) == NoButton
  {
  }

  // ----- the order of the table -----

  /** `(sub.name || "").toLowerCase()`: the sort key. */
  function NameKey(sub: Submission): (r: string)
    ensures |r| == |sub.name|
  {
    Lower(sub.name)
  }

  /** `a` comes strictly before `b` in the table. */
  predicate NameBefore(a: Submission, b: Submission) {
    LexLess(NameKey(a), NameKey(b))
  }

  /** No row's name key comes strictly before that of the row above it. */
  predicate NameOrdered(s: seq<Submission>) {
    forall k :: 0 < k < |s| ==> !NameBefore(s[k], s[k - 1])
  }

  /** Neighbour order gives the order of any two rows. */
  lemma {:induction false} NameOrderedPairwise(s: seq<Submission>, i: int, j: int)
    requires NameOrdered(s) && 0 <= i <= j < |s|
    ensures !NameBefore(s[j], s[i])
  {
    if i == j {
      LexLessIrreflexive(NameKey(s[i]));
    } else {
      NameOrderedPairwise(s, i, j - 1);
      LexLessSplits(NameKey(s[i]), NameKey(s[j - 1]), NameKey(s[j]));
    }
  }

  /** Sorting ignores case: "alice" goes before "Bob" although 'B' < 'a'. */
  lemma NameOrderIgnoresCase(a: Submission, b: Submission)
    requires a.name == "alice" && b.name == "Bob"
    ensures NameBefore(a, b) && !NameBefore(b, a)
  {
    assert NameKey(b)[0] == 'b';
    assert NameKey(a)[0] == 'a';
    LexLessAsymmetric(NameKey(a), NameKey(b));
  }
}

=== FILE: wrappers.dfy ===
/** Optional values: stands for JavaScript's `undefined` where the absence matters. */
module Wrappers {
  datatype Option<+T> = None | Some(value: T)
}
